=== FILE: README.md ===
# Source vetting and density rounding of the PupPal Cloudflare worker

The worker answers `POST /ai/estimate_density` with an estimated number of grams of a
dry dog food per cup and a short list of web sources. This project models the parts of
`cloudflare_worker/src/index.ts` that decide what goes into that answer, and proves
properties of them:

- `sanitizeUrl` (module `Sanitizer`). It cleans a URL quoted by a search engine or a
  language model: trim, drop one leading `@`, delete all white space. It then rejects the
  URL when it lacks an `http(s)://` scheme, looks truncated, is shorter than 15 code units,
  ends in a one-letter path segment, does not parse, or has a host name shorter than 4.
  Otherwise it returns the parser's serialization.
- `rankUrls` (modules `Ranker` and `StableSort`). It sanitizes the search hits and keeps
  the ones whose host ends with an allowlisted domain. It then sorts them by a trust score,
  highest first. The sort is stable: `Array.prototype.sort` has been stable since
  ECMAScript 2019.
- `filterLiveUrls` (module `Liveness`). It fetches the ranked URLs one at a time and keeps
  those that answer 200 with something that is not an error page. It stops once `max`
  URLs are kept. The test runs at the end of each iteration, so a candidate that ends in
  `continue` bypasses it. That makes a difference only for a cap below 1.
- The request's own glue around those functions (module `Pipeline`):
  - The top 12 ranked URLs are filtered down to at most 3 sources.
  - `grams_per_cup` is rounded with `Math.round`.
  - The density falls back to 112 when the reply carries no number.
  - `truncate`, the worker's helper that cuts the search contents down for the prompt.
- The JavaScript string operations the code relies on (module `JsStrings`):
  - `trim` and `\s` over the ECMAScript white-space set.
  - `toLowerCase` and the `i` regex flag.
  - `startsWith`, `endsWith` and `includes`.
  - `length` in UTF-16 code units.

Two collaborators are parameters rather than code:

- The WHATWG URL parser behind `new URL(s)` is `parse: string -> Option<Url>`. It gives
  `None` where the constructor throws.
- The network behind `fetch` is `net: string -> Fetch`. A `Fetch` either throws or is a
  response with status, final URL, `content-type`, parsed `content-length` and body.

Every property below therefore holds for every parser and every network.

## Model

| member | source | states |
|---|---|---|
| JsStrings.Trim | cloudflare_worker/src/index.ts:156 | `trim` returns the slice left after the leading and trailing white space; all that was removed is white space, and the result neither starts nor ends with it |
| JsStrings.RemoveSpaces | cloudflare_worker/src/index.ts:159 | `replace(/\s+/g, '')` leaves no white space and is never longer than its input |
| JsStrings.RemoveSpacesKeepsTheRest | cloudflare_worker/src/index.ts:159 | a character survives the white-space deletion exactly when it occurs in the input and is not white space |
| JsStrings.RemoveSpacesOfTrim | cloudflare_worker/src/index.ts:156-159 | trimming before deleting white space changes nothing: the deletion alone gives the same string |
| JsStrings.ContainsAt | cloudflare_worker/src/index.ts:138-141 | `includes` holds exactly when the pattern occurs at some index of the string; the same test models `includes` at line 114 and each alternative of the regex at line 118 |
| JsStrings.ToLower | cloudflare_worker/src/index.ts:136 | `toLowerCase` keeps the length, leaves no ASCII upper-case letter, and changes only ASCII upper-case letters, each to its lower-case form |
| JsStrings.ToLowerIsIdempotent | cloudflare_worker/src/index.ts:136 | lower-casing an already lower-cased string changes nothing |
| JsStrings.Utf16Length | cloudflare_worker/src/index.ts:164-168 | `.length` counts UTF-16 code units: between one and two per character |
| JsStrings.Utf16LengthOfBmp | cloudflare_worker/src/index.ts:164-168 | `.length` equals the character count exactly when every character lies in the Basic Multilingual Plane |
| Sanitizer.CleanIsSpaceFreeInput | cloudflare_worker/src/index.ts:156-159 | the cleaned string is the input with all white space deleted and then one leading `@` dropped, if there is one |
| Sanitizer.SanitizeUrl | cloudflare_worker/src/index.ts:154-173 | an accepted URL is the parser's serialization of the cleaned input |
| Sanitizer.SanitizeUrlRules | cloudflare_worker/src/index.ts:155-172 | each rejection rule: null or empty input, missing `http(s)://` scheme (any ASCII case), a truncated ending `-`, `/a` or `-a`, fewer than 15 code units, a path ending in `/` plus one letter, a parse failure, a host name shorter than 4; and a URL that passes every rule is accepted |
| Sanitizer.SanitizeIgnoresSpaces | cloudflare_worker/src/index.ts:156-159 | white space anywhere in the input does not change the verdict |
| Sanitizer.SanitizeIgnoresCitationAt | cloudflare_worker/src/index.ts:157 | one leading `@` in front of a URL does not change the verdict |
| Ranker.FirstLabel | cloudflare_worker/src/index.ts:132 | `d.split('.')[0]` is the longest dot-free prefix of `d` |
| Ranker.PreferFromAllow | cloudflare_worker/src/index.ts:131-133 | the preferred token at each of the first ten positions is the first label of the allowlisted domain at that position; `nutrition`, `feeding` and `kcal` follow |
| Ranker.AddPerTokenCounts | cloudflare_worker/src/index.ts:138-139 | over distinct tokens, each scoring loop adds its weight once per token the URL contains |
| Ranker.ScoreFormula | cloudflare_worker/src/index.ts:135-143 | the score is +2 per preferred token contained, -3 per social-media fragment, +1 for `https://` and +1 for a nutrition keyword, so a keyword counts 2 + 1 |
| Ranker.SanitizeAll | cloudflare_worker/src/index.ts:145-146 | a URL is among the sanitized hits exactly when it is non-empty (`!!u`) and some hit sanitizes to it |
| Ranker.KeepAllowed | cloudflare_worker/src/index.ts:148-150 | a URL survives the allowlist filter exactly when its lower-cased host name ends with an allowlisted domain; allowed URLs keep every occurrence |
| Ranker.SanitizeAllOfOne | cloudflare_worker/src/index.ts:145-146 | one hit contributes its sanitized URL when that is a non-empty string, and nothing when it is `null` or `''` |
| Ranker.SanitizeAllAppend | cloudflare_worker/src/index.ts:145-146 | `map` and `filter` work hit by hit: the survivors keep the hits' order, duplicates included |
| Ranker.KeepAllowedAppend | cloudflare_worker/src/index.ts:148-150 | the allowlist `filter` works URL by URL, so the survivors keep their order |
| Ranker.CandidatesAppend | cloudflare_worker/src/index.ts:145-150 | the URLs handed to the sort are the per-hit results concatenated in the order of the hits |
| Ranker.RankUrls | cloudflare_worker/src/index.ts:144-151 | the ranked list is a permutation of the allowlisted sanitized hits and is sorted by non-increasing score |
| Ranker.RankUrlsKeepsExactlyAllowed | cloudflare_worker/src/index.ts:144-150 | a URL is ranked exactly when it is non-empty, some hit sanitizes to it and its host is allowlisted |
| Ranker.RankUrlsIsStable | cloudflare_worker/src/index.ts:151 | URLs of equal score keep their input order |
| Ranker.RankUrlsIsTheStableSort | cloudflare_worker/src/index.ts:151 | any list that is sorted by score and keeps each score class in input order equals the ranking |
| StableSort.SortByKey | cloudflare_worker/src/index.ts:151 | the sort returns a permutation of its input that is sorted by non-increasing key |
| StableSort.SortIsStable | cloudflare_worker/src/index.ts:151 | within each key class the sorted list keeps the input order |
| StableSort.SortedByClassesUnique | cloudflare_worker/src/index.ts:151 | two lists sorted by non-increasing key that agree on every key class are equal |
| Liveness.Judge | cloudflare_worker/src/index.ts:107-120 | a kept response has status 200, and the kept URL is `res.url`, or the sanitized URL when `res.url` is empty |
| Liveness.AcceptanceRule | cloudflare_worker/src/index.ts:107-119 | a response is kept exactly when its status is 200 and it is either not HTML, or HTML with no `content-length` below 800 and a readable body longer than 800 code units without `404`, `not found`, `moved` or `no longer exists` in any case |
| Liveness.ContinueRule | cloudflare_worker/src/index.ts:108-116 | a response leads to a `continue`, which bypasses the cap test, exactly when its status is not 200 or it is HTML with a `content-length` below 800; every other unkept response, a thrown `fetch` included, still reaches the cap test |
| Liveness.OnlyStatus200IsKept | cloudflare_worker/src/index.ts:108 | a status other than 200 is never kept and is a `continue` |
| Liveness.ErrorPageIsDropped | cloudflare_worker/src/index.ts:118 | an HTML page mentioning an error marker is never kept |
| Liveness.Examine | cloudflare_worker/src/index.ts:104-105 | a candidate is kept only when it sanitizes to a non-empty string; a `null` or `''` sanitization is a `continue` |
| Liveness.ExamineAcceptance | cloudflare_worker/src/index.ts:104-118 | a candidate is kept exactly when it sanitizes to a non-empty `clean` whose response is accepted, and the URL kept is `res.url \|\| clean` |
| Liveness.LiveAmongComesFromCandidates | cloudflare_worker/src/index.ts:102-119 | every kept URL is the verdict on one of the examined candidates |
| Liveness.LiveAmongAppend | cloudflare_worker/src/index.ts:102-120 | candidates are judged one by one: the kept URLs of two lists back to back are those of each list, in order |
| Liveness.SkippedCandidateChangesNothing | cloudflare_worker/src/index.ts:105 | a rejected candidate leaves the result as if it were absent |
| Liveness.ThrownFetchSkipsOnlyThatUrl | cloudflare_worker/src/index.ts:103-120 | a fetch that throws keeps nothing for that candidate and otherwise leaves the kept list unchanged; the `catch` falls through to the cap test |
| Liveness.KeepUntilCap | cloudflare_worker/src/index.ts:100-124 | the loop keeps, in order, the URLs of the candidates examined; it stops early exactly after the first candidate that reaches the cap test with `max` URLs kept, candidates ending in `continue` never stop it, and a positive cap is never exceeded; with a cap below 1 it stops at the first candidate that does not `continue` |
| Liveness.ZeroCapStopsAtFirstTest | cloudflare_worker/src/index.ts:105-121 | with a cap below 1, every candidate before the one that stops the loop ended in `continue` |
| Liveness.FilterLiveUrls | cloudflare_worker/src/index.ts:100-124 | the same, with sanitize, fetch and judge as the per-candidate decision |
| Liveness.FilterAllLive | cloudflare_worker/src/index.ts:121 | when every candidate is live and `1 <= max <= |urls|`, exactly `max` candidates are fetched and kept, and none past the cap |
| Pipeline.TopRanked | cloudflare_worker/src/index.ts:42 | `slice(0, 12)` is a prefix of the ranking with at most 12 URLs, and all of the ranking when it is shorter |
| Pipeline.VetSources | cloudflare_worker/src/index.ts:42-43 | the sources are the kept verdicts on the first top-ranked URLs, in rank order, up to where the filter with cap 3 stops and no further; at most 3, each the verdict on one of the 12 top-ranked URLs |
| Pipeline.TopRankedAreAllowed | cloudflare_worker/src/index.ts:42 | each top-ranked URL is a non-empty sanitized search hit on an allowlisted host |
| Pipeline.Round | cloudflare_worker/src/index.ts:76 | `Math.round` gives the integer within half a unit of `x`, halves rounded up |
| Pipeline.RoundIsTheNearest | cloudflare_worker/src/index.ts:76 | only one integer meets that bound, so rounding is fully determined by it |
| Pipeline.GramsPerCup | cloudflare_worker/src/index.ts:72-76 | a reply without a numeric `grams_per_cup` gives 112; a finite number gives its rounding; `NaN` or an infinity gives `null` |
| Pipeline.Truncate | cloudflare_worker/src/index.ts:92-94 | `truncate` returns a prefix of its input, of length `min(length, n)` for `n >= 0`; a negative `n` cuts `-n` characters off the end, as `slice` does; the empty string is returned as is |
| Pipeline.TruncateIsIdempotent | cloudflare_worker/src/index.ts:92-94 | truncating again with the same non-negative bound changes nothing |

## Left out

- The HTTP handler (lines 11-90) is not modelled. That covers request parsing, the `brand required` 400 answer, the search and completion API calls, the prompt text, `JSON.parse`/`safeJson`, the `debug` record, `json()` and the 500 answer. They are I/O, and apart from the search hits and the reply's `grams_per_cup`, which are parameters here, the payload only copies the trimmed `brand` (lines 17 and 76) and, with `?debug=1`, the `meta` record (line 77); neither is computed by the modelled code. One consequence: a search call that throws ends in the 500 answer, not in a 112 answer with no sources.
- The `context` text built with `truncate(r.content, 3000)` and `truncate(context, 12000)` only feeds the prompt. `truncate` itself is modelled. The joining and template text are not.
- The fallback object's `sources` (line 74) is never read: the payload always cites the live list. So the model has no fallback source list.
- The WHATWG URL parser is a parameter. Idempotence of `sanitizeUrl` (sanitizing an accepted URL again gives it back) depends on that parser re-serializing its own output unchanged, so it is not proved.
- `fetch` is a parameter keyed by the sanitized URL, so fetching the same URL twice gives the same outcome. Timing, redirect handling and header parsing inside `fetch` are not modelled. `content-length` arrives already read by `parseInt`, with `None` standing for an absent header or `NaN`.
- JsStrings.ToLower: lower-cases ASCII letters only, while `toLowerCase` follows full Unicode case mapping. Every string it lower-cases is a parser serialization or host name, which the URL Standard makes ASCII, page text searched for ASCII markers, or the cleaned input tested for an `http://` or `https://` prefix (`HasHttpScheme`, modelling the `/i` regex at line 161). A non-unicode `/i` never folds a non-ASCII character to an ASCII one, so none of these tests can tell the difference.
- Pipeline.Truncate: counts characters where `slice` counts UTF-16 code units. The two agree on text without astral-plane characters.
- The regular-expression density extractor and its plausibility range are not part of this model: that code is not in this file.
- Kept URLs are not deduplicated, in the source or in the model. Two candidates that redirect to the same page both add it to the list.
- The `res.ok` test is implied by status 200, so the model does not state it separately.
- The closed form of the score counts each distinct preferred token once. The list of preferred tokens has no duplicates, so this is what the loop does.
- Sorting by score puts a social-media URL behind every higher-scoring URL. Among URLs of equal score, input order decides, so a social URL can precede a non-social URL of the same score. The model states the stable order instead of any social-first or social-last rule.
- Pipeline.GramsPerCup: `Math.round` of a `real` is exact. Rounding of the binary double is not modelled.

=== FILE: js_strings.dfy ===
/** The ECMAScript string operations the worker relies on: `trim`, `replace(/\s+/g, '')`,
    `toLowerCase`, `startsWith`, `endsWith`, `includes`, `length` and `slice`. */
module JsStrings {

  /** ECMAScript WhiteSpace or LineTerminator: the set `String.prototype.trim` strips and
      the regular-expression class `\s` matches. */
  predicate IsSpace(c: char) {
    || c == '\U{9}' || c == '\U{A}' || c == '\U{B}' || c == '\U{C}' || c == '\U{D}'
    || c == ' ' || c == '\U{A0}' || c == '\U{1680}'
    || ('\U{2000}' <= c <= '\U{200A}')
    || c == '\U{2028}' || c == '\U{2029}' || c == '\U{202F}' || c == '\U{205F}'
    || c == '\U{3000}' || c == '\U{FEFF}'
  }

  predicate NoSpace(s: string) {
    forall i :: 0 <= i < |s| ==> !IsSpace(s[i])
  }

  predicate AllSpace(s: string) {
    forall i :: 0 <= i < |s| ==> IsSpace(s[i])
  }

  /** Drops leading white space. */
  function TrimStart(s: string): (r: string)
    ensures |r| <= |s| && r == s[|s| - |r|..]
    ensures AllSpace(s[..|s| - |r|])
    ensures |r| > 0 ==> !IsSpace(r[0])
  {
    if |s| > 0 && IsSpace(s[0]) then TrimStart(s[1..]) else s
  }

  /** Drops trailing white space. */
  function TrimEnd(s: string): (r: string)
    ensures |r| <= |s| && r == s[..|r|]
    ensures AllSpace(s[|r|..])
    ensures |r| > 0 ==> !IsSpace(r[|r| - 1])
  {
    if |s| > 0 && IsSpace(s[|s| - 1]) then TrimEnd(s[..|s| - 1]) else s
  }

  /** The number of white-space characters `s` starts with. */
  function LeadingSpaces(s: string): (n: nat)
    ensures n <= |s| && AllSpace(s[..n])
    ensures n < |s| ==> !IsSpace(s[n])
  {
    |s| - |TrimStart(s)|
  }

  /** `String.prototype.trim`: the slice of `s` left after removing white space at both ends. */
  function Trim(s: string): (r: string)
    ensures LeadingSpaces(s) + |r| <= |s|
    ensures r == s[LeadingSpaces(s)..LeadingSpaces(s) + |r|]
    ensures AllSpace(s[LeadingSpaces(s) + |r|..])
    ensures |r| > 0 ==> !IsSpace(r[0]) && !IsSpace(r[|r| - 1])
  {
    var t := TrimStart(s);
    var r := TrimEnd(t);
    TrimParts(s, t, r, |s| - |t|);
    r
  }

  /** Cutting the suffix `t` of `s` down to its prefix `r` leaves the slice of `s` from `n`;
      what follows it in `s` is what follows it in `t`. */
  lemma TrimParts(s: string, t: string, r: string, n: nat)
    requires n + |t| == |s| && t == s[n..]
    requires |r| <= |t| && r == t[..|r|] && AllSpace(t[|r|..])
    requires |t| > 0 ==> !IsSpace(t[0])
    ensures r == s[n..n + |r|]
    ensures AllSpace(s[n + |r|..])
    ensures |r| > 0 ==> !IsSpace(r[0])
  {
    assert t[..|r|] == s[n..n + |r|];
    assert s[n + |r|..] == t[|r|..];
  }

  /** `s.replace(/\s+/g, '')`: every white-space character deleted, the rest kept in order. */
  function RemoveSpaces(s: string): (r: string)
    ensures |r| <= |s|
    ensures NoSpace(r)
  {
    if |s| == 0 then []
    else (if IsSpace(s[0]) then [] else [s[0]]) + RemoveSpaces(s[1..])
  }

  /** Deleting white space keeps exactly the other characters. */
  lemma {:induction false} RemoveSpacesKeepsTheRest(s: string, c: char)
    ensures c in RemoveSpaces(s) <==> c in s && !IsSpace(c)
  {
    if |s| > 0 {
      RemoveSpacesKeepsTheRest(s[1..], c);
      assert s == [s[0]] + s[1..];
    }
  }

  /** Deleting white space commutes with concatenation. */
  lemma {:induction false} RemoveSpacesAppend(a: string, b: string)
    ensures RemoveSpaces(a + b) == RemoveSpaces(a) + RemoveSpaces(b)
  {
    if |a| == 0 {
      assert a + b == b;
    } else {
      assert (a + b)[1..] == a[1..] + b;
      RemoveSpacesAppend(a[1..], b);
    }
  }

  /** A leading non-space character is kept. */
  lemma RemoveSpacesKeepsHead(c: char, s: string)
    requires !IsSpace(c)
    ensures RemoveSpaces([c] + s) == [c] + RemoveSpaces(s)
  {
    assert ([c] + s)[1..] == s;
  }

  /** A string made only of white space vanishes. */
  lemma {:induction false} RemoveSpacesOfSpaces(s: string)
    requires AllSpace(s)
    ensures RemoveSpaces(s) == []
  {
    if |s| > 0 {
      RemoveSpacesOfSpaces(s[1..]);
    }
  }

  /** A string without white space is left as it is. */
  lemma {:induction false} RemoveSpacesOfNoSpace(s: string)
    requires NoSpace(s)
    ensures RemoveSpaces(s) == s
  {
    if |s| > 0 {
      RemoveSpacesOfNoSpace(s[1..]);
    }
  }

  /** Deleting white space from `s` is the same as deleting it from `Trim(s)`. */
  lemma RemoveSpacesOfTrim(s: string)
    ensures RemoveSpaces(Trim(s)) == RemoveSpaces(s)
  {
    RemoveSpacesOfTrimStart(s);
    RemoveSpacesOfTrimEnd(TrimStart(s));
  }

  lemma {:induction false} RemoveSpacesOfTrimStart(s: string)
    ensures RemoveSpaces(TrimStart(s)) == RemoveSpaces(s)
  {
    if |s| > 0 && IsSpace(s[0]) {
      RemoveSpacesOfTrimStart(s[1..]);
    }
  }

  lemma {:induction false} RemoveSpacesOfTrimEnd(s: string)
    ensures RemoveSpaces(TrimEnd(s)) == RemoveSpaces(s)
  {
    if |s| > 0 && IsSpace(s[|s| - 1]) {
      var init := s[..|s| - 1];
      RemoveSpacesOfTrimEnd(init);
      assert s == init + [s[|s| - 1]];
      RemoveSpacesAppend(init, [s[|s| - 1]]);
      assert RemoveSpaces([s[|s| - 1]]) == [];
    }
  }

  /** ASCII lower-casing of one character. */
  function LowerChar(c: char): char {
    if 'A' <= c <= 'Z' then (c as int + 32) as char else c
  }

  /** `toLowerCase` restricted to ASCII letters; other characters are kept. */
  function ToLower(s: string): (r: string)
    ensures |r| == |s|
    ensures forall i :: 0 <= i < |r| ==> !('A' <= r[i] <= 'Z')
    // only ASCII upper-case letters change, each to the letter 32 code points above it
    ensures forall i :: 0 <= i < |s| && r[i] != s[i] ==> 'A' <= s[i] <= 'Z' && r[i] as int == s[i] as int + 32
  {
    seq(|s|, i requires 0 <= i < |s| => LowerChar(s[i]))
  }

  /** Lower-casing twice is lower-casing once. */
  lemma ToLowerIsIdempotent(s: string)
    ensures ToLower(ToLower(s)) == ToLower(s)
  {
    var l := ToLower(s);
    forall i | 0 <= i < |l|
      ensures ToLower(l)[i] == l[i]
    {
      assert !('A' <= l[i] <= 'Z');
    }
  }

  predicate StartsWith(s: string, prefix: string) {
    |prefix| <= |s| && s[..|prefix|] == prefix
  }

  predicate EndsWith(s: string, suffix: string) {
    |suffix| <= |s| && s[|s| - |suffix|..] == suffix
  }

  /** `s.includes(sub)`. */
  predicate Contains(s: string, sub: string)
    decreases |s|
  {
    StartsWith(s, sub) || (|s| > 0 && Contains(s[1..], sub))
  }

  /** `sub` occurs in `s` starting at index `i`. */
  predicate OccursAt(s: string, sub: string, i: int) {
    0 <= i <= |s| - |sub| && s[i..i + |sub|] == sub
  }

  /** `Contains` holds exactly when `sub` occurs at some position of `s`. */
  lemma {:induction false} ContainsAt(s: string, sub: string)
    ensures Contains(s, sub) <==> exists i :: OccursAt(s, sub, i)
  {
    if Contains(s, sub) {
      if StartsWith(s, sub) {
        assert OccursAt(s, sub, 0);
      } else {
        ContainsAt(s[1..], sub);
        var i :| OccursAt(s[1..], sub, i);
        assert s[i + 1..i + 1 + |sub|] == s[1..][i..i + |sub|];
        assert OccursAt(s, sub, i + 1);
      }
    } else if i :| OccursAt(s, sub, i) {
      if i == 0 {
        assert false;
      } else {
        assert s[1..][i - 1..i - 1 + |sub|] == s[i..i + |sub|];
        assert OccursAt(s[1..], sub, i - 1);
        ContainsAt(s[1..], sub);
      }
    }
  }

  /** `s.length`: the number of UTF-16 code units, two for a character outside the Basic
      Multilingual Plane. */
  function Utf16Length(s: string): (n: nat)
    ensures |s| <= n <= 2 * |s|
  {
    if |s| == 0 then 0
    else (if s[0] as int >= 0x1_0000 then 2 else 1) + Utf16Length(s[1..])
  }

  /** A character of the Basic Multilingual Plane is one code unit. */
  predicate InBmp(c: char) {
    c as int < 0x1_0000
  }

  /** The code-unit count equals the character count exactly when every character is in
      the Basic Multilingual Plane. */
  lemma {:induction false} Utf16LengthOfBmp(s: string)
    ensures Utf16Length(s) == |s| <==> forall i :: 0 <= i < |s| ==> InBmp(s[i])
  {
    if |s| > 0 {
      Utf16LengthOfBmp(s[1..]);
      assert forall i :: 0 < i < |s| ==> s[i] == s[1..][i - 1];
      if InBmp(s[0]) && !(forall i :: 0 <= i < |s| ==> InBmp(s[i])) {
        var i :| 0 <= i < |s| && !InBmp(s[i]);
        assert !InBmp(s[1..][i - 1]);
      }
    }
  }
}

=== FILE: liveness.dfy ===
/** `filterLiveUrls` (cloudflare_worker/src/index.ts): fetch the ranked URLs one after the
    other and keep those that answer with a real page, stopping once enough are kept. */
module Liveness {
  import opened Wrappers
  import opened JsStrings
  import opened Sanitizer

  /** What `fetch(clean, { method: 'GET', redirect: 'follow' })` gives: it throws, or it
      answers with a status, the final URL after redirects (`""` when `res.url` is empty),
      the `content-type` header (`""` when absent), the `content-length` header as
      `parseInt` reads it (`None` when absent or not a number) and the body that
      `res.text()` yields (`None` when reading it throws). */
  datatype Fetch =
    | Throws
    | Response(status: int, url: string, contentType: string, contentLength: Option<int>, body: Option<string>)

  /** The network: the outcome of fetching each sanitized URL. */
  type Network = string -> Fetch

  const HtmlType := "text/html"

  /** An HTML page must be longer than this, in the header and in UTF-16 code units of text. */
  const MinPageLength := 800

  /** `/404|not found|moved|no longer exists/i` matches the lower-cased text. */
  predicate HasErrorMarker(l: string) {
    Contains(l, "404") || Contains(l, "not found") || Contains(l, "moved") || Contains(l, "no longer exists")
  }

  /** The page text reads like an error or a redirect notice, ASCII case ignored. */
  predicate LooksLikeErrorPage(text: string) {
    HasErrorMarker(ToLower(text))
  }

  /** What one iteration of the loop does with a candidate. `Keep(url)` pushes `url` and
      then tests the cap; `Skip` is a `continue`, which pushes nothing and jumps over the
      cap test; `Drop` pushes nothing but still reaches the cap test (the page text was
      rejected, or `fetch` or `res.text()` threw and the `catch` fell through). */
  datatype Verdict = Keep(url: string) | Skip | Drop

  /** The body of the loop after `fetch`, for the response `res` to the sanitized URL `clean`. */
  function Judge(clean: string, res: Fetch): (v: Verdict)
    ensures v.Keep? ==> res.Response? && res.status == 200
    ensures v.Keep? ==> v.url == if res.url != "" then res.url else clean
  {
    match res
    case Throws => Drop
    case Response(status, url, ct, len, body) =>
      if status != 200 then Skip
      else
        var finalUrl := if url != "" then url else clean;
        if !Contains(ct, HtmlType) then Keep(finalUrl)
        else if len.Some? && len.value < MinPageLength then Skip
        else
          match body
          case None => Drop
          case Some(text) =>
            if Utf16Length(text) > MinPageLength && !LooksLikeErrorPage(text) then Keep(finalUrl) else Drop
  }

  /** The response passes the checks of lines 108-118: status 200 and either not HTML, or
      HTML whose declared length is not below 800 and whose text is longer than 800 with no
      error marker. */
  predicate Accepted(res: Fetch) {
    && res.Response?
    && res.status == 200
    && (|| !Contains(res.contentType, HtmlType)
        || (&& !(res.contentLength.Some? && res.contentLength.value < MinPageLength)
            && res.body.Some?
            && Utf16Length(res.body.value) > MinPageLength
            && !LooksLikeErrorPage(res.body.value)))
  }

  /** Exactly the accepted responses are kept. */
  lemma AcceptanceRule(clean: string, res: Fetch)
    ensures Judge(clean, res).Keep? <==> Accepted(res)
  {
  }

  /** Exactly when the response leads to a `continue`: a status other than 200, or an HTML
      page whose declared length is below 800. */
  lemma ContinueRule(clean: string, res: Fetch)
    ensures Judge(clean, res).Skip? <==>
              && res.Response?
              && (|| res.status != 200
                  || (&& Contains(res.contentType, HtmlType)
                      && res.contentLength.Some? && res.contentLength.value < MinPageLength))
  {
  }

  /** A response with a status other than 200 is never kept, whatever it carries, and the
      cap test is skipped for it. */
  lemma OnlyStatus200IsKept(clean: string, res: Fetch)
    requires res.Response? && res.status != 200
    ensures Judge(clean, res) == Skip
  {
  }

  /** An HTML page whose text mentions an error marker is never kept, however long it is. */
  lemma ErrorPageIsDropped(clean: string, res: Fetch)
    requires res.Response? && Contains(res.contentType, HtmlType)
    requires res.body.Some? && LooksLikeErrorPage(res.body.value)
    ensures !Judge(clean, res).Keep?
  {
  }

  /** One loop iteration: sanitize the candidate, skip it when the result is `null` or
      empty (`if (!clean) continue`), otherwise fetch it and judge the response. */
  function Examine(parse: Parser, net: Network, u: string): (v: Verdict)
    ensures v.Keep? ==> SanitizeUrl(parse, Some(u)).Some? && SanitizeUrl(parse, Some(u)).value != ""
    ensures SanitizeUrl(parse, Some(u)) in {None, Some("")} ==> v == Skip
  {
    match SanitizeUrl(parse, Some(u))
    case None => Skip
    case Some(clean) => if clean == "" then Skip else Judge(clean, net(clean))
  }

  /** Exactly when a candidate is kept, and what is kept: it sanitizes to a non-empty
      `clean`, the response to `clean` is accepted, and the kept URL is `res.url || clean`. */
  lemma ExamineAcceptance(parse: Parser, net: Network, u: string, x: string)
    ensures Examine(parse, net, u) == Keep(x) <==>
              var c := SanitizeUrl(parse, Some(u));
              && c.Some? && c.value != ""
              && Accepted(net(c.value))
              && x == if net(c.value).url != "" then net(c.value).url else c.value
  {
    var c := SanitizeUrl(parse, Some(u));
    if c.Some? && c.value != "" {
      AcceptanceRule(c.value, net(c.value));
    }
  }

  /** `Examine` for a fixed parser and network, as a value. */
  function Examiner(parse: Parser, net: Network): string -> Verdict {
    u => Examine(parse, net, u)
  }

  /** What one candidate adds to the kept list. */
  function Kept(keep: string -> Verdict, u: string): (r: seq<string>)
    ensures |r| <= 1
  {
    match keep(u)
    case Keep(v) => [v]
    case _ => []
  }

  /** The URLs `keep` retains from the candidates `us` when nothing stops the loop, in
      candidate order. */
  function LiveAmong(keep: string -> Verdict, us: seq<string>): (r: seq<string>)
    ensures |r| <= |us|
  {
    if |us| == 0 then []
    else LiveAmong(keep, us[..|us| - 1]) + Kept(keep, us[|us| - 1])
  }

  /** The loop breaks right after the `n`-th candidate: that candidate reached the cap
      test (it was not skipped by a `continue`) and by then `max` URLs were kept. */
  predicate StopsAfter(keep: string -> Verdict, us: seq<string>, n: nat, max: int) {
    0 < n <= |us| && !keep(us[n - 1]).Skip? && |LiveAmong(keep, us[..n])| >= max
  }

  /** No candidate among the first `n` stopped the loop. */
  predicate NoStopWithin(keep: string -> Verdict, us: seq<string>, n: nat, max: int) {
    forall j :: 0 < j <= n ==> !StopsAfter(keep, us, j, max)
  }

  /** Going one candidate further without a stop keeps `NoStopWithin`. */
  lemma NoStopWithinStep(keep: string -> Verdict, us: seq<string>, n: nat, max: int)
    requires NoStopWithin(keep, us, n, max) && !StopsAfter(keep, us, n + 1, max)
    ensures NoStopWithin(keep, us, n + 1, max)
  {
  }

  /** Every kept URL is what `keep` made of some candidate. */
  lemma {:induction false} LiveAmongComesFromCandidates(keep: string -> Verdict, us: seq<string>, x: string)
    requires x in LiveAmong(keep, us)
    ensures exists u :: u in us && keep(u) == Keep(x)
  {
    var init := us[..|us| - 1];
    if x in LiveAmong(keep, init) {
      LiveAmongComesFromCandidates(keep, init, x);
      var u :| u in init && keep(u) == Keep(x);
      assert u in us;
    } else {
      assert x in Kept(keep, us[|us| - 1]);
    }
  }

  /** Keeping is decided URL by URL: the kept URLs of a concatenation are those of each
      part, in order. */
  lemma {:induction false} LiveAmongAppend(keep: string -> Verdict, a: seq<string>, b: seq<string>)
    ensures LiveAmong(keep, a + b) == LiveAmong(keep, a) + LiveAmong(keep, b)
    decreases |b|
  {
    if |b| == 0 {
      assert a + b == a;
    } else {
      var b' := b[..|b| - 1];
      assert (a + b)[..|a + b| - 1] == a + b';
      LiveAmongAppend(keep, a, b');
    }
  }

  /** A single candidate keeps what `keep` makes of it. */
  lemma LiveAmongOfOne(keep: string -> Verdict, u: string)
    ensures LiveAmong(keep, [u]) == Kept(keep, u)
  {
    assert [u][..0] == [];
  }

  lemma NotKeptAddsNothing(keep: string -> Verdict, pre: seq<string>, u: string, post: seq<string>)
    requires !keep(u).Keep?
    ensures LiveAmong(keep, pre + [u] + post) == LiveAmong(keep, pre + post)
  {
    LiveAmongAppend(keep, pre + [u], post);
    LiveAmongAppend(keep, pre, [u]);
    LiveAmongOfOne(keep, u);
    LiveAmongAppend(keep, pre, post);
  }

  /** A candidate `keep` does not keep adds nothing: the kept list is that of the list
      without it. */
  lemma SkippedCandidateChangesNothing(keep: string -> Verdict, us: seq<string>, i: nat)
    requires i < |us| && !keep(us[i]).Keep?
    ensures LiveAmong(keep, us) == LiveAmong(keep, us[..i] + us[i + 1..])
  {
    var pre, post := us[..i], us[i + 1..];
    assert us == pre + [us[i]] + post;
    NotKeptAddsNothing(keep, pre, us[i], post);
  }

  /** A candidate whose fetch throws is dropped, not skipped (the `catch` falls through to
      the cap test), and it adds nothing: the kept list is that of the list without it. */
  lemma ThrownFetchSkipsOnlyThatUrl(parse: Parser, net: Network, us: seq<string>, i: nat)
    requires i < |us|
    requires SanitizeUrl(parse, Some(us[i])).Some? && SanitizeUrl(parse, Some(us[i])).value != ""
    requires net(SanitizeUrl(parse, Some(us[i])).value) == Throws
    ensures Examine(parse, net, us[i]) == Drop
    ensures LiveAmong(Examiner(parse, net), us) == LiveAmong(Examiner(parse, net), us[..i] + us[i + 1..])
  {
    SkippedCandidateChangesNothing(Examiner(parse, net), us, i);
  }

  /** Examining one more candidate appends what `keep` makes of it. */
  lemma LiveAmongStep(keep: string -> Verdict, us: seq<string>, i: nat)
    requires i < |us|
    ensures LiveAmong(keep, us[..i + 1]) == LiveAmong(keep, us[..i]) + Kept(keep, us[i])
  {
    assert us[..i + 1][..i] == us[..i];
  }

  /** When every candidate is kept, each one adds one URL. */
  lemma {:induction false} AllLiveKeepsEach(keep: string -> Verdict, us: seq<string>)
    requires forall u :: u in us ==> keep(u).Keep?
    ensures |LiveAmong(keep, us)| == |us|
  {
    if |us| > 0 {
      var init := us[..|us| - 1];
      assert forall u :: u in init ==> u in us;
      AllLiveKeepsEach(keep, init);
      assert us[|us| - 1] in us;
    }
  }

  /** The loop of `filterLiveUrls` for a per-candidate decision `keep`: the kept URLs in
      candidate order, with the number of candidates examined before the loop stopped. */
  method KeepUntilCap(keep: string -> Verdict, urls: seq<string>, max: int)
    returns (out: seq<string>, examined: nat)
    ensures examined <= |urls|
    // the kept URLs are exactly those of the examined candidates, in their order
    ensures out == LiveAmong(keep, urls[..examined])
    // the loop stops early only right after a candidate that reached the cap test with
    // the cap met, and no earlier candidate did so
    ensures examined < |urls| ==> StopsAfter(keep, urls, examined, max)
    ensures forall j :: 0 < j < examined ==> !StopsAfter(keep, urls, j, max)
    // a positive cap is respected
    ensures 1 <= max ==> |out| <= max
    // a cap below 1 stops at the first candidate that is not skipped by a `continue`
    ensures max < 1 ==> forall j :: 0 <= j < examined - 1 ==> keep(urls[j]).Skip?
  {
    out := [];
    examined := 0;
    while examined < |urls|
      invariant examined <= |urls|
      invariant out == LiveAmong(keep, urls[..examined])
      invariant NoStopWithin(keep, urls, examined, max)
      invariant 1 <= max ==> |out| < max
      decreases |urls| - examined
    {
      LiveAmongStep(keep, urls, examined);
      var v := keep(urls[examined]);
      out := out + Kept(keep, urls[examined]);
      examined := examined + 1;
      if !v.Skip? && |out| >= max {
        assert StopsAfter(keep, urls, examined, max);
        break;
      }
      assert !StopsAfter(keep, urls, examined, max);
      NoStopWithinStep(keep, urls, examined - 1, max);
    }
    assert urls[..|urls|] == urls;
    if max < 1 {
      ZeroCapStopsAtFirstTest(keep, urls, examined, max);
    }
  }

  /** With a cap below 1 every candidate that reaches the cap test stops the loop, so all
      candidates before the last one examined were skipped by a `continue`. */
  lemma ZeroCapStopsAtFirstTest(keep: string -> Verdict, us: seq<string>, n: nat, max: int)
    requires max < 1 && n <= |us|
    requires forall j :: 0 < j < n ==> !StopsAfter(keep, us, j, max)
    ensures forall j :: 0 <= j < n - 1 ==> keep(us[j]).Skip?
  {
    forall j | 0 <= j < n - 1
      ensures keep(us[j]).Skip?
    {
      assert !StopsAfter(keep, us, j + 1, max);
    }
  }

  /** `filterLiveUrls(urls, max)`: each candidate is sanitized, fetched and judged in turn,
      and the loop stops once `max` URLs are kept (a `continue` bypasses that test). */
  method FilterLiveUrls(parse: Parser, net: Network, urls: seq<string>, max: int)
    returns (out: seq<string>, examined: nat)
    ensures examined <= |urls|
    ensures out == LiveAmong(Examiner(parse, net), urls[..examined])
    ensures examined < |urls| ==> StopsAfter(Examiner(parse, net), urls, examined, max)
    ensures forall j :: 0 < j < examined ==> !StopsAfter(Examiner(parse, net), urls, j, max)
    ensures 1 <= max ==> |out| <= max
  {
    out, examined := KeepUntilCap(Examiner(parse, net), urls, max);
  }

  /** With every candidate live and `1 <= max <= |urls|`, exactly the first `max` candidates
      are examined and kept: the filter makes no request past the cap. */
  method FilterAllLive(parse: Parser, net: Network, urls: seq<string>, max: int)
    returns (out: seq<string>, examined: nat)
    requires forall u :: u in urls ==> Examine(parse, net, u).Keep?
    requires 1 <= max <= |urls|
    ensures examined == max && |out| == max
  {
    var keep := Examiner(parse, net);
    out, examined := FilterLiveUrls(parse, net, urls, max);
    assert forall u :: u in urls[..examined] ==> u in urls;
    assert forall u :: u in urls[..max] ==> u in urls;
    AllLiveKeepsEach(keep, urls[..examined]);
    AllLiveKeepsEach(keep, urls[..max]);
    assert urls[max - 1] in urls;
    assert StopsAfter(keep, urls, max, max);
  }
}

=== FILE: pipeline.dfy ===
/** The `POST /ai/estimate_density` request in cloudflare_worker/src/index.ts, restricted to what
    it computes from the search results and the model's reply: the vetted source list and
    the rounded density. */
module Pipeline {
  import opened Wrappers
  import opened Sanitizer
  import opened Ranker
  import opened Liveness

  /** Ranked URLs handed to the liveness filter. */
  const MaxRanked := 12

  /** Live URLs the payload cites at most. */
  const MaxSources := 3

  /** The typical density, in grams per cup, used when the reply carries no number. */
  const FallbackGrams := 112

  /** `rankUrls(...).slice(0, 12)`: the best-ranked candidates. */
  function TopRanked(parse: Parser, urls: seq<string>): (r: seq<string>)
    ensures |r| <= MaxRanked
    ensures r <= RankUrls(parse, urls)
    ensures |r| == MaxRanked || r == RankUrls(parse, urls)
  {
    var all := RankUrls(parse, urls);
    if |all| <= MaxRanked then all else all[..MaxRanked]
  }

  /** The `sources` of the payload: the top-ranked candidates filtered for liveness with a
      cap of three; `examined` counts the candidates fetched. The sources are the kept
      verdicts on the first `examined` top-ranked candidates, in rank order, and the filter
      stopped exactly where the cap was first met. Each verdict may be the address a
      redirect led to. */
  method VetSources(parse: Parser, net: Network, urls: seq<string>)
    returns (sources: seq<string>, examined: nat)
    ensures examined <= |TopRanked(parse, urls)|
    ensures sources == LiveAmong(Examiner(parse, net), TopRanked(parse, urls)[..examined])
    ensures examined < |TopRanked(parse, urls)| ==>
              StopsAfter(Examiner(parse, net), TopRanked(parse, urls), examined, MaxSources)
    ensures forall j :: 0 < j < examined ==>
              !StopsAfter(Examiner(parse, net), TopRanked(parse, urls), j, MaxSources)
    ensures |sources| <= MaxSources
    ensures forall x :: x in sources ==>
              exists u :: u in TopRanked(parse, urls) && Examine(parse, net, u) == Keep(x)
  {
    var ranked := TopRanked(parse, urls);
    sources, examined := FilterLiveUrls(parse, net, ranked, MaxSources);
    forall x | x in sources
      ensures exists u :: u in ranked && Examine(parse, net, u) == Keep(x)
    {
      LiveAmongComesFromCandidates(Examiner(parse, net), ranked[..examined], x);
      var u :| u in ranked[..examined] && Examiner(parse, net)(u) == Keep(x);
      assert u in ranked;
    }
  }

  /** A top-ranked candidate is a non-empty sanitized search result on an allowlisted host. */
  lemma TopRankedAreAllowed(parse: Parser, urls: seq<string>, u: string)
    ensures u in TopRanked(parse, urls) ==>
              && u != ""
              && AllowedHost(parse, u)
              && SanitizesTo(parse, urls, u)
  {
    if u in TopRanked(parse, urls) {
      RankUrlsKeepsExactlyAllowed(parse, urls, u);
    }
  }

  /** `truncate(s, n)`: `s.slice(0, n)` when `s` is longer than `n`, otherwise `s`.
      A negative `n` counts back from the end, as `slice` does. */
  function Truncate(s: string, n: int): (r: string)
    ensures r <= s
    ensures 0 <= n ==> |r| == if |s| <= n then |s| else n
    ensures n < 0 && |s| > 0 ==> |r| == if |s| + n < 0 then 0 else |s| + n
  {
    if |s| > 0 && |s| > n then
      (if n >= 0 then s[..n] else if |s| + n < 0 then [] else s[..|s| + n])
    else s
  }

  /** Truncating twice with the same non-negative bound changes nothing more. */
  lemma TruncateIsIdempotent(s: string, n: int)
    requires 0 <= n
    ensures Truncate(Truncate(s, n), n) == Truncate(s, n)
  {
  }

  /** The `grams_per_cup` field of the parsed reply, as JavaScript sees it: a finite
      number, `NaN` or an infinity, or anything that is not a number (missing included). */
  datatype Reply = Finite(x: real) | NonFinite | NotNumber

  /** `Math.round` of a finite number: the nearest integer, halves rounded up. */
  function Round(x: real): (n: int)
    ensures n as real - 0.5 <= x < n as real + 0.5
  {
    (x + 0.5).Floor
  }

  /** Only one integer lies within half a unit below and strictly less than half a unit
      above `x`, so `Round` is fully determined by its contract. */
  lemma RoundIsTheNearest(x: real, n: int)
    requires n as real - 0.5 <= x < n as real + 0.5
    ensures Round(x) == n
  {
    var m := Round(x);
    assert m as real - n as real < 1.0 && n as real - m as real < 1.0;
  }

  /** The `grams_per_cup` of the payload: the rounded number, 112 when the reply has none,
      and `None` (serialized `null`) when rounding yields `NaN` or an infinity. */
  function GramsPerCup(v: Reply): (r: Option<int>)
    ensures v.NotNumber? ==> r == Some(FallbackGrams)
    ensures v.NonFinite? ==> r.None?
    ensures v.Finite? ==> r.Some? && r.value as real - 0.5 <= v.x < r.value as real + 0.5
  {
    match v
    case NotNumber => Some(FallbackGrams)
    case NonFinite => None
    case Finite(x) => Some(Round(x))
  }
}

=== FILE: ranker.dfy ===
/** `rankUrls` (cloudflare_worker/src/index.ts): sanitize the search hits, keep those on
    an allowlisted domain, and order them by a trust score, highest first. */
module Ranker {
  import opened Wrappers
  import opened JsStrings
  import opened Sanitizer
  import opened StableSort

  /** Manufacturer and pet-retailer domains a source must belong to. */
  const Allow: seq<string> := [
    "purina.com", "hillspet.com", "royalcanin.com", "bluebuffalo.com",
    "orijen.ca", "acana.com", "chewy.com", "petsmart.com", "petco.com", "zooplus.com"
  ]

  /** Keywords that mark a nutrition or feeding page. */
  const Keywords: seq<string> := ["nutrition", "feeding", "kcal"]

  /** Social-media fragments that lower the score. */
  const Avoid: seq<string> := ["facebook.", "pinterest.", "twitter.", "x.com", "tiktok.", "instagram."]

  /** `d.split('.')[0]`: the text before the first dot, or all of `d` if it has none. */
  function FirstLabel(d: string): (r: string)
    ensures r <= d && '.' !in r
    ensures |r| < |d| ==> d[|r|] == '.'
  {
    if |d| == 0 || d[0] == '.' then "" else [d[0]] + FirstLabel(d[1..])
  }

  /** Tokens worth +2 each: `allow.map(d => d.split('.')[0])` followed by the keywords
      (see `PreferFromAllow`). */
  const Prefer: seq<string> := [
    "purina", "hillspet", "royalcanin", "bluebuffalo", "orijen", "acana",
    "chewy", "petsmart", "petco", "zooplus"
  ] + Keywords

  /** The running total of `for (const t of tokens) if (l.includes(t)) s += w`, from `s`. */
  function AddPerToken(l: string, tokens: seq<string>, w: int, s: int): int
    decreases |tokens|
  {
    if |tokens| == 0 then s
    else AddPerToken(l, tokens[1..], w, if Contains(l, tokens[0]) then s + w else s)
  }

  /** `score(u)`, computed as the statements of `score` run. */
  function Score(u: string): int {
    ScoreLowered(ToLower(u))
  }

  /** The body of `score` on the already lower-cased URL `l`. */
  function ScoreLowered(l: string): int {
    var preferred := AddPerToken(l, Prefer, 2, 0);
    var avoided := AddPerToken(l, Avoid, -3, preferred);
    var secure := if StartsWith(l, "https://") then avoided + 1 else avoided;
    if HasKeyword(l) then secure + 1 else secure
  }

  /** `l.includes('nutrition') || l.includes('feeding') || l.includes('kcal')`. */
  predicate HasKeyword(l: string) {
    Contains(l, "nutrition") || Contains(l, "feeding") || Contains(l, "kcal")
  }

  /** The distinct tokens of `tokens` that occur in `l`. */
  ghost function Matched(l: string, tokens: seq<string>): set<string> {
    set t | t in tokens && Contains(l, t)
  }

  predicate Distinct(s: seq<string>) {
    forall i, j :: 0 <= i < j < |s| ==> s[i] != s[j]
  }

  /** Over distinct tokens, the loop adds `w` once per token that occurs. */
  lemma {:induction false} AddPerTokenCounts(l: string, tokens: seq<string>, w: int, s: int)
    requires Distinct(tokens)
    ensures AddPerToken(l, tokens, w, s) == s + w * |Matched(l, tokens)|
    decreases |tokens|
  {
    if |tokens| == 0 {
      assert Matched(l, tokens) == {};
    } else {
      var t, rest := tokens[0], tokens[1..];
      var s' := if Contains(l, t) then s + w else s;
      assert Distinct(rest) by {
        forall i, j | 0 <= i < j < |rest|
          ensures rest[i] != rest[j]
        {
          assert rest[i] == tokens[i + 1] && rest[j] == tokens[j + 1];
        }
      }
      AddPerTokenCounts(l, rest, w, s');
      MatchedCons(l, tokens);
    }
  }

  /** Peeling the first of distinct tokens off the matched set. */
  lemma MatchedCons(l: string, tokens: seq<string>)
    requires Distinct(tokens) && |tokens| > 0
    ensures |Matched(l, tokens)| == |Matched(l, tokens[1..])| + if Contains(l, tokens[0]) then 1 else 0
  {
    var t, rest := tokens[0], tokens[1..];
    forall j | 0 <= j < |rest|
      ensures rest[j] != t
    {
      assert rest[j] == tokens[j + 1];
    }
    assert tokens == [t] + rest;
    if Contains(l, t) {
      assert Matched(l, tokens) == Matched(l, rest) + {t};
    } else {
      assert Matched(l, tokens) == Matched(l, rest);
    }
  }

  /** `FirstLabel` returns the part before the first dot. */
  lemma FirstLabelBeforeDot(d: string, n: nat)
    requires n < |d| && d[n] == '.'
    requires forall i :: 0 <= i < n ==> d[i] != '.'
    ensures FirstLabel(d) == d[..n]
  {
    var r := FirstLabel(d);
    forall i | 0 <= i < |r|
      ensures r[i] == d[i] && r[i] != '.'
    {
      assert r[i] in r;
    }
  }

  /** The first `|Allow|` preferred tokens are the allowlisted domains' first labels. */
  lemma PreferFromAllow(i: nat)
    requires i < |Allow|
    ensures Prefer[i] == FirstLabel(Allow[i])
  {
    var n := |Prefer[i]|;
    assert Allow[i] == Prefer[i] + Allow[i][n..];
    FirstLabelBeforeDot(Allow[i], n);
  }

  /** The preferred tokens are pairwise different. */
  lemma PreferIsDistinct()
    ensures Distinct(Prefer)
  {
  }

  lemma AvoidIsDistinct()
    ensures Distinct(Avoid)
  {
  }

  /** The score in closed form: two points per distinct preferred token the lower-cased URL
      contains, minus three per social-media fragment, one for `https://`, and one more when
      it mentions `nutrition`, `feeding` or `kcal`, so such a keyword earns 2 + 1. */
  lemma ScoreFormula(u: string)
    ensures var l := ToLower(u);
            Score(u) == 2 * |Matched(l, Prefer)| - 3 * |Matched(l, Avoid)|
                        + (if StartsWith(l, "https://") then 1 else 0)
                        + (if HasKeyword(l) then 1 else 0)
  {
    var l := ToLower(u);
    PreferIsDistinct();
    AvoidIsDistinct();
    AddPerTokenCounts(l, Prefer, 2, 0);
    AddPerTokenCounts(l, Avoid, -3, AddPerToken(l, Prefer, 2, 0));
  }

  /** The allowlist filter: the URL re-parses and its lower-cased host name ends with one
      of the allowlisted domains (a plain suffix test, so `notpurina.com` passes too). */
  predicate AllowedHost(parse: Parser, u: string) {
    match parse(u)
    case None => false
    case Some(url) => exists d :: d in Allow && EndsWith(ToLower(url.hostname), d)
  }

  /** Some search hit sanitizes to `x`. */
  predicate SanitizesTo(parse: Parser, urls: seq<string>, x: string) {
    exists i :: 0 <= i < |urls| && SanitizeUrl(parse, Some(urls[i])) == Some(x)
  }

  /** A hit sanitizing to `x` is the first hit or one of the rest. */
  lemma SanitizesToCons(parse: Parser, urls: seq<string>)
    requires |urls| > 0
    ensures forall x :: SanitizesTo(parse, urls, x) <==>
              SanitizeUrl(parse, Some(urls[0])) == Some(x) || SanitizesTo(parse, urls[1..], x)
  {
    forall x | SanitizesTo(parse, urls[1..], x)
      ensures SanitizesTo(parse, urls, x)
    {
      var i :| 0 <= i < |urls[1..]| && SanitizeUrl(parse, Some(urls[1..][i])) == Some(x);
      assert urls[i + 1] == urls[1..][i];
    }
    forall x | SanitizesTo(parse, urls, x) && SanitizeUrl(parse, Some(urls[0])) != Some(x)
      ensures SanitizesTo(parse, urls[1..], x)
    {
      var i :| 0 <= i < |urls| && SanitizeUrl(parse, Some(urls[i])) == Some(x);
      assert urls[1..][i - 1] == urls[i];
    }
  }

  /** `urls.map(sanitizeUrl).filter(u => !!u)`: the sanitized URLs, in input order, with
      `null` and the empty string (both falsy) left out. */
  function SanitizeAll(parse: Parser, urls: seq<string>): (r: seq<string>)
    ensures |r| <= |urls|
    ensures forall x :: x in r <==> x != "" && SanitizesTo(parse, urls, x)
  {
    if |urls| == 0 then []
    else
      var rest := SanitizeAll(parse, urls[1..]);
      var head := SanitizeUrl(parse, Some(urls[0]));
      var r := if head.Some? && head.value != "" then [head.value] + rest else rest;
      SanitizeAllStep(parse, urls, rest, r);
      r
  }

  /** The membership contract of `SanitizeAll` carries over from the hits after the first
      to all of them. */
  lemma SanitizeAllStep(parse: Parser, urls: seq<string>, rest: seq<string>, r: seq<string>)
    requires |urls| > 0
    requires forall x :: x in rest <==> x != "" && SanitizesTo(parse, urls[1..], x)
    requires var head := SanitizeUrl(parse, Some(urls[0]));
             r == if head.Some? && head.value != "" then [head.value] + rest else rest
    ensures forall x :: x in r <==> x != "" && SanitizesTo(parse, urls, x)
  {
    SanitizesToCons(parse, urls);
  }

  /** The allowlist filter over a list, in input order. */
  function KeepAllowed(parse: Parser, us: seq<string>): (r: seq<string>)
    ensures |r| <= |us|
    ensures forall x :: x in r <==> x in us && AllowedHost(parse, x)
    ensures forall x :: AllowedHost(parse, x) ==> multiset(r)[x] == multiset(us)[x]
  {
    if |us| == 0 then []
    else
      var rest := KeepAllowed(parse, us[1..]);
      assert us == [us[0]] + us[1..];
      if AllowedHost(parse, us[0]) then [us[0]] + rest else rest
  }

  /** A single hit contributes its sanitized URL when that is a non-empty string, and
      nothing otherwise. */
  lemma SanitizeAllOfOne(parse: Parser, u: string)
    ensures SanitizeAll(parse, [u]) ==
              match SanitizeUrl(parse, Some(u))
              case Some(v) => if v != "" then [v] else []
              case None => []
  {
    assert [u][1..] == [];
  }

  /** `map` and `filter` work hit by hit: sanitizing a concatenation concatenates the
      results, so the survivors keep the hits' order and every duplicate hit survives. */
  lemma {:induction false} SanitizeAllAppend(parse: Parser, a: seq<string>, b: seq<string>)
    ensures SanitizeAll(parse, a + b) == SanitizeAll(parse, a) + SanitizeAll(parse, b)
    decreases |a|
  {
    if |a| > 0 {
      assert (a + b)[0] == a[0];
      assert (a + b)[1..] == a[1..] + b;
      SanitizeAllAppend(parse, a[1..], b);
    } else {
      assert a + b == b;
    }
  }

  /** The allowlist filter on a list with a known head. */
  lemma KeepAllowedCons(parse: Parser, h: string, t: seq<string>)
    ensures KeepAllowed(parse, [h] + t) ==
              (if AllowedHost(parse, h) then [h] else []) + KeepAllowed(parse, t)
  {
    assert ([h] + t)[0] == h;
    assert ([h] + t)[1..] == t;
  }

  /** The allowlist filter works URL by URL, so the survivors keep their order. */
  lemma {:induction false} KeepAllowedAppend(parse: Parser, a: seq<string>, b: seq<string>)
    ensures KeepAllowed(parse, a + b) == KeepAllowed(parse, a) + KeepAllowed(parse, b)
    decreases |a|
  {
    if |a| > 0 {
      var t := a[1..];
      assert a == [a[0]] + t;
      assert a + b == [a[0]] + (t + b);
      var h := if AllowedHost(parse, a[0]) then [a[0]] else [];
      var kt, kb := KeepAllowed(parse, t), KeepAllowed(parse, b);
      KeepAllowedCons(parse, a[0], t);
      KeepAllowedCons(parse, a[0], t + b);
      KeepAllowedAppend(parse, t, b);
      assert h + (kt + kb) == (h + kt) + kb;
    } else {
      assert a + b == b;
      assert KeepAllowed(parse, a) == [];
    }
  }

  /** The candidates of a concatenation of hits are the candidates of each part, in order. */
  lemma CandidatesAppend(parse: Parser, a: seq<string>, b: seq<string>)
    ensures Candidates(parse, a + b) == Candidates(parse, a) + Candidates(parse, b)
  {
    SanitizeAllAppend(parse, a, b);
    KeepAllowedAppend(parse, SanitizeAll(parse, a), SanitizeAll(parse, b));
  }

  /** The URLs `rankUrls` sorts: sanitized and on the allowlist, in input order. */
  function Candidates(parse: Parser, urls: seq<string>): seq<string> {
    KeepAllowed(parse, SanitizeAll(parse, urls))
  }

  /** `rankUrls(urls)`: the candidates stably sorted by non-increasing score. */
  function RankUrls(parse: Parser, urls: seq<string>): (r: seq<string>)
    // nothing is dropped or duplicated
    ensures multiset(r) == multiset(Candidates(parse, urls))
    // highest score first
    ensures SortedDesc(r, Score)
  {
    SortByKey(Candidates(parse, urls), Score)
  }

  /** Every ranked URL is a non-empty sanitized input on an allowlisted domain, whatever
      its score, and every such URL is ranked. */
  lemma RankUrlsKeepsExactlyAllowed(parse: Parser, urls: seq<string>, x: string)
    ensures x in RankUrls(parse, urls) <==>
              && x != ""
              && AllowedHost(parse, x)
              && SanitizesTo(parse, urls, x)
  {
    var c := Candidates(parse, urls);
    assert x in RankUrls(parse, urls) <==> x in multiset(c);
    assert x in c <==> x in SanitizeAll(parse, urls) && AllowedHost(parse, x);
  }

  /** Ranking is stable: URLs of equal score keep their input order. */
  lemma RankUrlsIsStable(parse: Parser, urls: seq<string>, k: int)
    ensures WithKey(RankUrls(parse, urls), Score, k) == WithKey(Candidates(parse, urls), Score, k)
  {
    SortIsStable(Candidates(parse, urls), Score, k);
  }

  /** Any stable sort by non-increasing score of the candidates gives the same list as
      `RankUrls`: the ranking is fully determined by the scores and the input order. */
  lemma RankUrlsIsTheStableSort(parse: Parser, urls: seq<string>, r: seq<string>)
    requires SortedDesc(r, Score)
    requires forall k :: WithKey(r, Score, k) == WithKey(Candidates(parse, urls), Score, k)
    ensures r == RankUrls(parse, urls)
  {
    var ranked := RankUrls(parse, urls);
    forall k
      ensures WithKey(r, Score, k) == WithKey(ranked, Score, k)
    {
      RankUrlsIsStable(parse, urls, k);
    }
    SortedByClassesUnique(r, ranked, Score);
  }
}

=== FILE: sanitizer.dfy ===
/** `sanitizeUrl` (cloudflare_worker/src/index.ts): clean up a URL quoted by a search
    engine or a language model and reject the ones that look malformed or truncated. */
module Sanitizer {
  import opened Wrappers
  import opened JsStrings

  /** The parts of a parsed URL the worker reads: `hostname`, `pathname` and the
      serialization `toString()`. */
  datatype Url = Url(hostname: string, pathname: string, href: string)

  /** The WHATWG URL Standard basic URL parser behind `new URL(s)`: `None` when the
      constructor throws. The model keeps it uninterpreted by taking it as a parameter. */
  type Parser = string -> Option<Url>

  /** The string the rejection rules look at: trimmed, one leading `@` dropped, then
      every white-space character deleted. */
  function Clean(u: string): (c: string)
    ensures NoSpace(c) && |c| <= |u|
  {
    var t := Trim(u);
    var s := if StartsWith(t, "@") then t[1..] else t;
    RemoveSpaces(s)
  }

  /** Cleaning deletes every white-space character and, when the first remaining
      character is `@`, that one `@` too; nothing else is lost or reordered. */
  lemma CleanIsSpaceFreeInput(u: string)
    ensures var w := RemoveSpaces(u);
            Clean(u) == if StartsWith(w, "@") then w[1..] else w
  {
    var t := Trim(u);
    var w := RemoveSpaces(u);
    RemoveSpacesOfTrim(u);
    assert w == RemoveSpaces(t);
    StartsWithAt(t);
    StartsWithAt(w);
    if |t| > 0 {
      var rest := RemoveSpaces(t[1..]);
      assert w == [t[0]] + rest;
      assert w[0] == t[0];
      if t[0] == '@' {
        assert w[1..] == rest;
      }
    }
  }

  /** Starting with `"@"` is having `@` as first character. */
  lemma StartsWithAt(s: string)
    ensures StartsWith(s, "@") <==> |s| > 0 && s[0] == '@'
  {
    if |s| > 0 {
      assert s[..1] == [s[0]];
    }
  }

  /** Cleaning ignores white space anywhere in the input. */
  lemma CleanIgnoresSpaces(u: string)
    ensures Clean(RemoveSpaces(u)) == Clean(u)
  {
    CleanIsSpaceFreeInput(u);
    CleanIsSpaceFreeInput(RemoveSpaces(u));
    RemoveSpacesOfNoSpace(RemoveSpaces(u));
  }

  /** `/^https?:\/\//i`: an `http://` or `https://` scheme, ASCII case ignored. */
  predicate HasHttpScheme(s: string) {
    var l := ToLower(s);
    StartsWith(l, "http://") || StartsWith(l, "https://")
  }

  /** The endings the worker takes for a citation cut short. */
  predicate HasTruncatedEnding(s: string) {
    EndsWith(s, "-") || EndsWith(s, "/a") || EndsWith(s, "-a")
  }

  /** The shortest cleaned string that is kept, in UTF-16 code units. */
  const MinUrlLength := 15

  /** The shortest host name that is kept, in UTF-16 code units. */
  const MinHostLength := 4

  predicate IsAsciiLetter(c: char) {
    ('a' <= c <= 'z') || ('A' <= c <= 'Z')
  }

  /** `/\/[A-Za-z]$/`: the path ends in `/` followed by one ASCII letter. */
  predicate HasSingleLetterTail(path: string) {
    |path| >= 2 && path[|path| - 2] == '/' && IsAsciiLetter(path[|path| - 1])
  }

  /** `sanitizeUrl(u)`: the parser's serialization of the cleaned string, or `None` when
      one of the rejection rules applies (`SanitizeUrlRules` lists them). */
  function SanitizeUrl(parse: Parser, u: Option<string>): (r: Option<string>)
    ensures r.Some? ==> u.Some? && parse(Clean(u.value)).Some?
                        && r.value == parse(Clean(u.value)).value.href
  {
    if u.None? || u.value == "" then None else CheckCleaned(parse, Clean(u.value))
  }

  /** The rejection rules of `sanitizeUrl`, in the order `sanitizeUrl` applies them, on the cleaned string `s`. */
  function CheckCleaned(parse: Parser, s: string): (r: Option<string>)
    ensures r.Some? ==> parse(s).Some? && r.value == parse(s).value.href
  {
    if !HasHttpScheme(s) then None
    else
      var path := match parse(s) case Some(url) => url.pathname case None => "";
      if HasTruncatedEnding(s) || Utf16Length(s) < MinUrlLength then None
      else if path != "" && HasSingleLetterTail(path) then None
      else
        match parse(s)
        case None => None
        case Some(url) => if Utf16Length(url.hostname) < MinHostLength then None else Some(url.href)
  }

  /** Every rejection rule of `sanitizeUrl`, and that nothing else rejects. */
  lemma SanitizeUrlRules(parse: Parser, u: Option<string>)
    // null or empty input
    ensures u.None? || u.value == "" ==> SanitizeUrl(parse, u).None?
    // the remaining rules look at the cleaned string
    ensures u.Some? ==>
              var c := Clean(u.value);
              var r := SanitizeUrl(parse, u);
              && (!HasHttpScheme(c) ==> r.None?)
              && (Utf16Length(c) < MinUrlLength || HasTruncatedEnding(c) ==> r.None?)
              && (parse(c).None? ==> r.None?)
              && (parse(c).Some? && HasSingleLetterTail(parse(c).value.pathname) ==> r.None?)
              && (parse(c).Some? && Utf16Length(parse(c).value.hostname) < MinHostLength ==> r.None?)
              && (&& u.value != "" && HasHttpScheme(c) && Utf16Length(c) >= MinUrlLength
                  && !HasTruncatedEnding(c) && parse(c).Some?
                  && !HasSingleLetterTail(parse(c).value.pathname)
                  && Utf16Length(parse(c).value.hostname) >= MinHostLength
                  ==> r.Some?)
  {
  }

  /** An empty cleaned string is rejected. */
  lemma NothingToCheck(parse: Parser, s: string)
    requires |s| == 0
    ensures CheckCleaned(parse, s) == None
  {
    assert !StartsWith(ToLower(s), "http://");
  }

  /** Two non-empty inputs that clean to the same string get the same verdict. */
  lemma SanitizeThroughClean(parse: Parser, u: string, v: string)
    requires u != "" && v != "" && Clean(u) == Clean(v)
    ensures SanitizeUrl(parse, Some(u)) == SanitizeUrl(parse, Some(v))
  {
  }

  /** White space anywhere in the input changes nothing: the verdict is that of the input
      with all white space deleted (an input of only white space is rejected). */
  lemma SanitizeIgnoresSpaces(parse: Parser, u: string)
    ensures SanitizeUrl(parse, Some(u)) == SanitizeUrl(parse, Some(RemoveSpaces(u)))
  {
    var w := RemoveSpaces(u);
    if u == "" {
      assert w == "";
    } else if w == "" {
      CleanIsSpaceFreeInput(u);
      NothingToCheck(parse, Clean(u));
    } else {
      CleanIgnoresSpaces(u);
      SanitizeThroughClean(parse, u, w);
    }
  }

  /** Cleaning drops one leading `@`. */
  lemma CleanDropsCitationAt(u: string)
    requires !StartsWith(RemoveSpaces(u), "@")
    ensures Clean("@" + u) == Clean(u)
  {
    var w := RemoveSpaces(u);
    var w' := RemoveSpaces("@" + u);
    assert "@" + u == ['@'] + u;
    assert !IsSpace('@');
    RemoveSpacesKeepsHead('@', u);
    assert w' == ['@'] + w;
    StartsWithAt(w');
    assert w'[1..] == w;
    CleanIsSpaceFreeInput("@" + u);
    CleanIsSpaceFreeInput(u);
  }

  /** A single leading `@` (a citation artifact) changes nothing. */
  lemma SanitizeIgnoresCitationAt(parse: Parser, u: string)
    requires !StartsWith(RemoveSpaces(u), "@")
    ensures SanitizeUrl(parse, Some("@" + u)) == SanitizeUrl(parse, Some(u))
  {
    CleanDropsCitationAt(u);
    if u == "" {
      NothingToCheck(parse, Clean(u));
    } else {
      SanitizeThroughClean(parse, "@" + u, u);
    }
  }
}

=== FILE: stable_sort.dfy ===
/** The stable descending sort `xs.sort((a, b) => key(b) - key(a))` of ECMAScript
    (`Array.prototype.sort` is stable), written as an insertion sort on sequences. */
module StableSort {

  /** Non-increasing by `key`. */
  predicate SortedDesc<T>(s: seq<T>, key: T -> int) {
    forall i, j :: 0 <= i < j < |s| ==> key(s[i]) >= key(s[j])
  }

  /** The elements of `s` whose key is `k`, in their order in `s`. */
  function WithKey<T>(s: seq<T>, key: T -> int, k: int): (r: seq<T>)
    ensures |r| <= |s|
    ensures forall i :: 0 <= i < |r| ==> key(r[i]) == k
  {
    if |s| == 0 then []
    else (if key(s[0]) == k then [s[0]] else []) + WithKey(s[1..], key, k)
  }

  /** Puts `x` in front of the first element whose key is not larger than its own. */
  function Insert<T>(x: T, s: seq<T>, key: T -> int): (r: seq<T>)
    requires SortedDesc(s, key)
    ensures SortedDesc(r, key)
    ensures multiset(r) == multiset(s) + multiset{x}
  {
    if |s| == 0 || key(s[0]) <= key(x) then [x] + s
    else
      var t := Insert(x, s[1..], key);
      assert s == [s[0]] + s[1..];
      HeadStaysFirst(x, s, t, key);
      [s[0]] + t
  }

  /** Inserting below the head of `s` keeps the head first. */
  lemma HeadStaysFirst<T>(x: T, s: seq<T>, t: seq<T>, key: T -> int)
    requires |s| > 0 && key(s[0]) > key(x) && SortedDesc(s, key)
    requires SortedDesc(t, key) && multiset(t) == multiset(s[1..]) + multiset{x}
    ensures SortedDesc([s[0]] + t, key)
  {
    forall i | 0 <= i < |t|
      ensures key(s[0]) >= key(t[i])
    {
      assert t[i] in multiset(t);
      if t[i] != x {
        assert t[i] in s[1..];
        var j :| 0 <= j < |s[1..]| && s[1..][j] == t[i];
        assert s[j + 1] == t[i];
      }
    }
    ConsSorted(s[0], t, key);
  }

  /** A head whose key bounds the sorted tail's keeps the sequence sorted. */
  lemma ConsSorted<T>(h: T, t: seq<T>, key: T -> int)
    requires SortedDesc(t, key)
    requires forall i :: 0 <= i < |t| ==> key(h) >= key(t[i])
    ensures SortedDesc([h] + t, key)
  {
    var r := [h] + t;
    forall i, j | 0 <= i < j < |r|
      ensures key(r[i]) >= key(r[j])
    {
      assert r[j] == t[j - 1];
      if 0 < i {
        assert r[i] == t[i - 1];
      }
    }
  }

  /** `s` sorted by non-increasing key, each element taken at the head and inserted. */
  function SortByKey<T>(s: seq<T>, key: T -> int): (r: seq<T>)
    ensures SortedDesc(r, key)
    ensures multiset(r) == multiset(s)
  {
    if |s| == 0 then []
    else
      assert s == [s[0]] + s[1..];
      Insert(s[0], SortByKey(s[1..], key), key)
  }

  /** The key class of a sequence with a given head. */
  lemma WithKeyCons<T>(x: T, s: seq<T>, key: T -> int, k: int)
    ensures WithKey([x] + s, key, k) == (if key(x) == k then [x] else []) + WithKey(s, key, k)
  {
    assert ([x] + s)[1..] == s;
  }

  /** Inserting `x` keeps the order within every key class, with `x` placed first. */
  lemma {:induction false} InsertKeepsClasses<T>(x: T, s: seq<T>, key: T -> int, k: int)
    requires SortedDesc(s, key)
    ensures WithKey(Insert(x, s, key), key, k) == WithKey([x] + s, key, k)
  {
    if |s| > 0 && key(s[0]) > key(x) {
      var t := Insert(x, s[1..], key);
      InsertKeepsClasses(x, s[1..], key, k);
      SwapClassHeads(s[0], x, s[1..], t, key, k);
    }
  }

  /** Moving `x` behind a head `y` of strictly larger key leaves every class unchanged. */
  lemma SwapClassHeads<T>(y: T, x: T, s: seq<T>, t: seq<T>, key: T -> int, k: int)
    requires key(y) > key(x)
    requires WithKey(t, key, k) == WithKey([x] + s, key, k)
    ensures WithKey([y] + t, key, k) == WithKey([x] + ([y] + s), key, k)
  {
    WithKeyCons(y, t, key, k);
    WithKeyCons(x, s, key, k);
    WithKeyCons(y, s, key, k);
    WithKeyCons(x, [y] + s, key, k);
    if key(y) == k {
      assert WithKey([y] + t, key, k) == [y] + WithKey(s, key, k);
    } else if key(x) == k {
      assert WithKey([y] + t, key, k) == [x] + WithKey(s, key, k);
    } else {
      assert WithKey([y] + t, key, k) == WithKey(s, key, k);
    }
  }

  /** The sort is stable: within each key class the input order survives. */
  lemma {:induction false} SortIsStable<T>(s: seq<T>, key: T -> int, k: int)
    ensures WithKey(SortByKey(s, key), key, k) == WithKey(s, key, k)
  {
    if |s| > 0 {
      var t := SortByKey(s[1..], key);
      SortIsStable(s[1..], key, k);
      InsertKeepsClasses(s[0], t, key, k);
      WithKeyCons(s[0], t, key, k);
      WithKeyCons(s[0], s[1..], key, k);
      assert s == [s[0]] + s[1..];
    }
  }

  /** A sequence sorted by non-increasing key is determined by its key classes: two
      sorted sequences that agree on every class are equal. So `SortByKey` returns the
      one result any stable descending sort must return. */
  lemma {:induction false} SortedByClassesUnique<T>(a: seq<T>, b: seq<T>, key: T -> int)
    requires SortedDesc(a, key) && SortedDesc(b, key)
    requires forall k :: WithKey(a, key, k) == WithKey(b, key, k)
    ensures a == b
    decreases |a| + |b|
  {
    if |a| == 0 && |b| == 0 {
    } else if |a| == 0 {
      ClassOfHeadIsNonEmpty(b, key);
      assert false;
    } else if |b| == 0 {
      ClassOfHeadIsNonEmpty(a, key);
      assert false;
    } else {
      var ka, kb := key(a[0]), key(b[0]);
      assert a == [a[0]] + a[1..];
      assert b == [b[0]] + b[1..];
      ClassOfHeadIsNonEmpty(a, key);
      ClassOfHeadIsNonEmpty(b, key);
      HasKeyIsBelowHead(b, key, ka);
      HasKeyIsBelowHead(a, key, kb);
      assert ka == kb;
      var ca, cb := WithKey(a, key, ka), WithKey(b, key, ka);
      assert ca == cb;
      assert ca == [a[0]] + WithKey(a[1..], key, ka);
      assert cb == [b[0]] + WithKey(b[1..], key, ka);
      assert a[0] == ca[0] == cb[0] == b[0];
      forall k
        ensures WithKey(a[1..], key, k) == WithKey(b[1..], key, k)
      {
        var ca, cb := WithKey(a, key, k), WithKey(b, key, k);
        assert ca == cb;
        if key(a[0]) == k {
          assert ca == [a[0]] + WithKey(a[1..], key, k);
          assert cb == [b[0]] + WithKey(b[1..], key, k);
          assert ca[1..] == WithKey(a[1..], key, k);
          assert cb[1..] == WithKey(b[1..], key, k);
        } else {
          assert ca == WithKey(a[1..], key, k);
          assert cb == WithKey(b[1..], key, k);
        }
      }
      SortedByClassesUnique(a[1..], b[1..], key);
    }
  }

  /** A non-empty sequence has a non-empty class for the key of its head. */
  lemma ClassOfHeadIsNonEmpty<T>(s: seq<T>, key: T -> int)
    requires |s| > 0
    ensures WithKey(s, key, key(s[0])) != []
  {
  }

  /** In a sorted sequence with an element of key `k`, the head's key is at least `k`. */
  lemma {:induction false} HasKeyIsBelowHead<T>(s: seq<T>, key: T -> int, k: int)
    requires SortedDesc(s, key)
    requires WithKey(s, key, k) != []
    ensures |s| > 0 && key(s[0]) >= k
  {
    if key(s[0]) != k {
      HasKeyIsBelowHead(s[1..], key, k);
    }
  }
}

=== FILE: wrappers.dfy ===
/** The optional-value type used where the worker returns `null` or `undefined`. */
module Wrappers {

  /** `None` stands for JavaScript's `null`/`undefined`, `Some(v)` for a present value. */
  datatype Option<+T> = None | Some(value: T)
}
